=== FILE: README.md ===
# homework_bot in Dafny

A model of the decision logic of `homework.py`, a Telegram bot that polls the
Practicum homework-status API. Each iteration of its loop does four things:

- it fetches the statuses changed since a cursor;
- it validates the answer and takes the newest homework (`check_response`);
- it turns that homework's status into a notification through the closed
  three-entry status catalog (`parse_status`);
- it sends the notification only when it differs from the last one sent.

Any exception in the iteration becomes the error notification
`Сбой в работе программы: <error>`. That notification is sent only when it
differs from the last error sent. Before the loop starts, `check_tokens`
requires all three credentials.

Files:

- `wrappers.dfy`: `Option` and `Result`.
- `pyvalue.dfy` (module `PyValue`): the Python values a decoded JSON body can
  hold. It also models the built-ins the bot applies to them: truth value,
  `len`, `dict.get`, `in` and `str`. Each exception keeps its class and its
  `str()` text, because that text ends up in a chat message.
- `homework.py`'s pure functions are in `homework.dfy` (module `Homework`).
- The loop of `main` is in `polling.dfy` (module `Polling`). It has a pure
  step function `Next` (the `try` block `TryBlock`, then the `except` block
  `Report`) and its run `Iterate`. It also has the class `Poller`, whose
  fields are `current_timestamp`, `message_bot`, `message_error` and a running
  flag. `Poller.Try` is the `try` block, `Poller.Step` is one pass of the
  `try`/`except`, and `Poller.Run` is a bounded run of the loop.
- `polling_properties.dfy` (module `PollingProperties`): what the loop
  guarantees.

The network, the chat client and the clock are inputs. For each iteration, a
`Cycle` gives:

- the time;
- what the fetch produced;
- whether the status send succeeded;
- whether the error send succeeded.

Behaviour of the code that the model keeps:

- `raise (f'...')` raises a string. In Python 3 that is itself a
  `TypeError("exceptions must derive from BaseException")`. So a failed
  request, a non-200 status, an unknown or missing status and a failed send
  all report the same error text. Once that text has been reported,
  deduplication suppresses its repeats as long as no other error was reported
  in between (`RaisedStringsShareOneReport`).
- The guard `('homework_name' or 'status') not in homework` tests only
  `homework_name`. A record without `status` fails through the final `raise`,
  not through the KeyError.
- After a successful fetch, the cursor becomes `response.get('current_date')`.
  When that field is absent the cursor is `None`, so the next request uses the
  current time. The cursor is not "retained" in that case.
- The iteration calls `check_response` once more after the status check. So an
  empty `homeworks` list always takes the error path with an IndexError.
- If the error notification itself cannot be sent, the exception leaves `main`
  and the loop stops (`running` becomes false).
- Missing credentials end `main` before the loop. The code calls `sys.exit()`
  with no argument.

## Model

| member | source | states |
|---|---|---|
| `Homework.CheckResponse` | homework.py:69-82 | succeeds exactly when the response is a dict whose `homeworks` is a non-empty list, and then returns `homeworks[0]` |
| `Homework.CheckResponseErrorOrder` | homework.py:71-80 | each failure by shape of the response. A non-dict gives TypeError. A missing `homeworks` gives KeyError. A value without `len` gives TypeError. An empty list, string or dict gives the IndexError, because emptiness is checked before the list type. A non-empty string or dict gives TypeError |
| `Homework.ParseStatus` | homework.py:85-96 | `parse_status`, branch for branch. Its contract is stated and proved in `Homework.ParseStatusMeaning` |
| `Homework.ParseStatusMeaning` | homework.py:85-96 | succeeds exactly for a dict with `homework_name` and a `status` in the catalog. The result is then `Изменился статус проверки работы "<name>". <verdict>`. A missing `homework_name` gives the KeyError. A missing or unknown string status gives the raised-string TypeError |
| `Homework.StatusChangeChangesMessage` | homework.py:31-35 | two different catalog statuses of the same homework give different notifications |
| `Homework.CheckTokens` | homework.py:99-118 | true exactly when all three credentials are set and non-empty |
| `Homework.ProvidedIsTruthy` | homework.py:102 | a credential is usable exactly when Python finds its getenv value (a string or None) true |
| `Homework.AllMeansEach` | homework.py:101-102 | Python's `all()` over the credential list holds exactly when every credential is usable |
| `Homework.FetchCursor` | homework.py:53 | the `from_date` is the cursor when it is true, otherwise the current time; it is always true when the time is not 0 |
| `PyValue.Truthy` | homework.py:53 | Python truth value: None, False, 0 and empty strings, lists and dicts are false |
| `PyValue.Len` | homework.py:75 | `len(v)` exists exactly for strings, lists and dicts. Otherwise it is the TypeError. A value with a length has length 0 exactly when it is false |
| `PyValue.Get` | homework.py:90-91 | `dict.get(key)` gives the value under the key, or None when the key is absent |
| `PyValue.Contains` | homework.py:87 | `'homework_name' in homework` is key membership for a dict. It is a TypeError exactly for values that are not containers |
| `PyValue.KeyOf` | homework.py:93 | a status is found in the catalog only when it is a string key of it. A list or dict status raises the unhashable TypeError |
| `PyValue.NatToString` | homework.py:95 | the decimal text of an integer homework name is non-empty, is made of digits, has no leading zero, and its digits denote the integer (`DecimalValue(r) == n`) |
| `PyValue.Display` | homework.py:95 | the text an f-string substitutes for the homework name: `None`, `True`/`False`, the decimal integer with its sign, the string itself |
| `Polling.GetApiAnswer` | homework.py:51-66 | a fetch yields a body exactly when the request answered with JSON. A failed request or a non-200 status gives the raised-string TypeError |
| `Polling.Initial` | homework.py:127-129 | the state before the first iteration: the current time as cursor, both memories empty, running |
| `Polling.NextCursor` | homework.py:133 | the cursor after a fetch: `response.get('current_date')` for a dict body, unchanged when the fetch or `.get` raised |
| `Polling.NewestMessage` | homework.py:135 | `parse_status(check_response(response))`: the notification for `homeworks[0]`, or the first exception |
| `Polling.Evaluate` | homework.py:132-140 | the outcome of the `try` block before any send: the status message to compare, or the exception. An empty `homeworks` gives no status message: the final `check_response` raises the IndexError. Its properties are `NewestHomeworkIsReported`, `EveryCycleReportsOrRaises` and `EmptyHomeworksTakeErrorPath` |
| `Polling.TryBlock` | homework.py:131-140 | the `try` block: the state, the sends attempted and the exception raised. `Polling.Poller.Try` implements it and `TryDelivery` states what it delivers |
| `Polling.Report` | homework.py:141-146 | the `except` block: the error notification is sent unless it equals `message_error`. A failed send stops the loop. `ReportDelivery` states what it delivers |
| `Polling.Next` | homework.py:130-148 | one iteration: the `try` block, then the `except` block when it raised. `Polling.Poller.Step` implements it and the `PollingProperties` lemmas state its properties |
| `Polling.Iterate` | homework.py:130-148 | a bounded run: iterations in order until the loop stops. `Polling.Poller.Run` implements it and `DeliveredNeverRepeats` states its property |
| `Polling.Poller.constructor` | homework.py:127-129 | the loop starts with the current time as cursor and both memories empty |
| `Polling.Poller.Try` | homework.py:131-140 | the `try` block changes the state and returns the messages it tried to send and the exception it raised, exactly as `TryBlock` says |
| `Polling.Poller.Step` | homework.py:130-148 | one iteration changes the state exactly as `Next` says. It returns the `from_date` requested and the messages it tried to send |
| `Polling.Poller.Run` | homework.py:130-148 | a bounded run of the loop ends in the state `Iterate` gives and sends its messages in order. It stops after a failed error send |
| `Polling.Launch` | homework.py:121-148 | `main` enters the loop exactly when the three credentials are usable. It sends nothing otherwise |
| `PollingProperties.EveryCycleReportsOrRaises` | homework.py:134-140 | an iteration that raises nothing always has a status message to compare |
| `PollingProperties.NewestHomeworkIsReported` | homework.py:132-140 | an iteration's status message exists exactly when `check_response` and `parse_status` succeed on the body. It is the formatted `homeworks[0]` |
| `PollingProperties.EmptyHomeworksTakeErrorPath` | homework.py:133-146 | an empty `homeworks` list sends no status. The cursor still moves to `current_date`. The only message is the IndexError notification, unless it repeats the last error |
| `PollingProperties.CursorRule` | homework.py:132-133 | the request uses the cursor default. After a dict was fetched the cursor becomes `current_date`, or None when it is absent. It is unchanged when the fetch or `.get` raised |
| `PollingProperties.MissingDateFallsBackToNow` | homework.py:133 | after a response without `current_date`, the next request uses the current time |
| `PollingProperties.RepeatedStatusNotSent` | homework.py:136-138 | a status message equal to `message_bot` is not sent. Nothing but the cursor changes |
| `PollingProperties.MemoriesFollowDeliveries` | homework.py:136-146 | `message_bot` changes only to a status just delivered. `message_error` changes only to an error notification just delivered. An iteration whose `try` block raised nothing never touches `message_error` |
| `PollingProperties.HaltsOnlyOnFailedErrorSend` | homework.py:141-148 | the loop stops exactly when the last message of the iteration was an error notification whose send failed |
| `PollingProperties.RepeatedErrorNotSent` | homework.py:141-146 | an exception whose notification equals `message_error` is not even attempted: the iteration sends only what the `try` block sent, changes nothing else, and does not halt |
| `PollingProperties.ErrorAttemptsDifferFromMemory` | homework.py:144-145 | every error notification an iteration attempts, delivered or not, differs from the `message_error` it started with |
| `PollingProperties.RaisedStringsShareOneReport` | homework.py:141-146 | while `message_error` still holds the raised-string report, a failed request, an unknown or missing status or a failed status send sends no error and changes only the cursor |
| `PollingProperties.TryDelivery` | homework.py:134-140 | the `try` block delivers at most one status and no error. It never delivers the remembered status. `message_bot` becomes exactly the status it delivered |
| `PollingProperties.ReportDelivery` | homework.py:141-146 | the `except` block only appends to what was sent, and delivers at most one error and no status. It never delivers the remembered error. `message_error` becomes exactly the error it delivered |
| `PollingProperties.StepDelivery` | homework.py:136-146 | per channel, one iteration delivers at most one message. It is never the remembered one, and the memory becomes what was delivered |
| `PollingProperties.DeliveredNeverRepeats` | homework.py:130-148 | over any run, the delivered status messages never repeat back to back, and neither do the delivered error messages. The first differs from the starting memory. The final memory is the last one delivered |
| `PollingProperties.RepeatsStayQuiet` | homework.py:136-139 | once a status is remembered, fetching the same answer again sends nothing in any number of iterations |
| `PollingProperties.SameAnswerNotifiedOnce` | homework.py:130-139 | a new status fetched again and again is sent exactly once when its first send succeeds |
| `PollingProperties.ApprovedExample` | homework.py:31-35 | an approved `hw1` with `current_date` 1000 gives the approval notification and cursor 1000 |

## Left out

- The HTTP request, its status code and JSON decoding are not modelled as I/O. They are one `Fetch` input: an answer, a failed request (a `requests.get` exception and a non-200 status give the same raised-string error), or an undecodable body with the decoder's message.
- The Telegram client is reduced to whether each send succeeded. Any send failure is the raised-string error.
- Environment loading is not modelled: credentials are parameters. The `Authorization` header built from the token is not modelled.
- Logging, including the critical lines per missing credential, is not modelled. Those lines test `is None`, so an empty credential is refused without a per-credential line (the general critical line of `main` is still written).
- `time.time()` is not modelled: each iteration's time is an input. `time.sleep(RETRY_TIME)` does not change the state and is not modelled.
- The unbounded `while True` is modelled as a run over a finite list of iterations.
- Floating-point JSON numbers are not modelled. Integers are unbounded.
- PyValue.Display: a list- or dict-valued `homework_name` is shown only as `[...]` or `{...}`, not as Python's `repr`. Dict key order is not modelled.
- PyValue.MissingKey: quotes its key as `repr` does only for keys without quotes or backslashes. Those are the only keys the bot uses.
- PyValue.Json: a JSON object with repeated keys is not modelled. A dict is a map.
- Polling.Launch: `telegram.Bot(token=...)` is not modelled. A malformed token can make it raise before the loop, and the model always enters the loop once the credentials are set.

=== FILE: homework.dfy ===
/** The pure decisions of the homework bot: the response validator
    (`check_response`), the status formatter (`parse_status`) over the
    closed status catalog, the credential predicate (`check_tokens`) and the
    rule that picks the `from_date` of a request (`get_api_answer`). */
module Homework {
  import opened Wrappers
  import opened PyValue

  /** The status catalog: each review status and the verdict shown for it. */
  const HOMEWORK_STATUSES: map<string, string> := map[
    "approved" := "Работа проверена: ревьюеру всё понравилось. Ура!",
    "reviewing" := "Работа взята на проверку ревьюером.",
    "rejected" := "Работа проверена: у ревьюера есть замечания."
  ]

  /** The TypeError `check_response` raises when `got` is not of the class
      `expected`; the message for a non-dict response ends in a space. */
  function WrongType(expected: string, got: Json, tail: string): Error
  {
    Error(TypeError,
      "Тип данных не соответсвует ожидаемым. Ожидается тип данных: <class '"
      + expected + "'>. Получен: <class '" + TypeName(got) + "'>" + tail)
  }

  const EmptyHomeworks: Error := Error(IndexError, "Пустой список домашних работ")

  const MissingName: Error := Error(KeyError, "'homework_name или status отсутствуют в homework'")

  /** The response is a dict whose `homeworks` is a non-empty list. */
  predicate HasNewest(response: Json)
  {
    && response.JDict?
    && "homeworks" in response.fields
    && response.fields["homeworks"].JList?
    && |response.fields["homeworks"].items| > 0
  }

  /** `check_response`: the newest homework record, `homeworks[0]`, of a
      well-shaped response; otherwise the first exception met by the checks,
      taken in the order the source makes them. */
  function CheckResponse(response: Json): (r: Result<Json, Error>)
    ensures r.Success? <==> HasNewest(response)
    ensures r.Success? ==> r.value == response.fields["homeworks"].items[0]
  {
    if !response.JDict? then Failure(WrongType("dict", response, " "))
    else if "homeworks" !in response.fields then Failure(MissingKey("homeworks"))
    else
      var homeworks := response.fields["homeworks"];
      match Len(homeworks)
      case None => Failure(NoLen(homeworks))
      case Some(n) =>
        if n == 0 then Failure(EmptyHomeworks)
        else if !homeworks.JList? then Failure(WrongType("list", homeworks, ""))
        else Success(homeworks.items[0])
  }

  /** The failures of `check_response`, by the shape of the response. Emptiness
      is checked before the list type, so an empty string or an empty dict in
      `homeworks` is reported as an empty list. */
  lemma CheckResponseErrorOrder(response: Json)
    ensures !response.JDict? ==>
      CheckResponse(response) == Failure(WrongType("dict", response, " "))
    ensures response.JDict? && "homeworks" !in response.fields ==>
      CheckResponse(response) == Failure(MissingKey("homeworks"))
    ensures response.JDict? && "homeworks" in response.fields ==>
      var homeworks := response.fields["homeworks"];
      && (homeworks.JNull? || homeworks.JBool? || homeworks.JInt? ==>
            CheckResponse(response) == Failure(NoLen(homeworks)))
      && (homeworks in {JList([]), JStr(""), JDict(map[])} ==>
            CheckResponse(response) == Failure(EmptyHomeworks))
      && ((homeworks.JStr? || homeworks.JDict?) && Truthy(homeworks) ==>
            CheckResponse(response) == Failure(WrongType("list", homeworks, "")))
  {
  }

  /** A status that has an entry in the catalog. */
  predicate Known(status: Json)
  {
    status.JStr? && status.s in HOMEWORK_STATUSES
  }

  /** The notification text for a homework named `name` with `verdict`. */
  function Notification(name: Json, verdict: string): string
  {
    "Изменился статус проверки работы \"" + Display(name) + "\". " + verdict
  }

  /** `parse_status`. Its guard `('homework_name' or 'status') not in homework`
      evaluates `'homework_name' or 'status'` to `'homework_name'`, so only
      that key is checked; a missing or unknown status reaches the final
      `raise` of a string. */
  function ParseStatus(homework: Json): Result<string, Error>
  {
    match Contains(homework, "homework_name")
    case Failure(e) => Failure(e)
    case Success(present) =>
      if !present then Failure(MissingName)
      else if !homework.JDict? then Failure(NoAttribute(homework, "get"))
      else
        var name := Get(homework.fields, "homework_name");
        var status := Get(homework.fields, "status");
        match KeyOf(status, HOMEWORK_STATUSES)
        case Failure(e) => Failure(e)
        case Success(known) =>
          if known then Success(Notification(name, HOMEWORK_STATUSES[status.s]))
          else Failure(RaisedString)
  }

  /** What `parse_status` returns: the notification exactly for a dict with a
      `homework_name` and a catalog status; the KeyError only when the name
      is missing; the raised-string error for a missing or unknown status. */
  lemma ParseStatusMeaning(homework: Json)
    ensures ParseStatus(homework).Success? <==>
      && homework.JDict?
      && "homework_name" in homework.fields
      && "status" in homework.fields
      && Known(homework.fields["status"])
    ensures ParseStatus(homework).Success? ==>
      ParseStatus(homework).value
      == Notification(homework.fields["homework_name"], HOMEWORK_STATUSES[homework.fields["status"].s])
    ensures homework.JDict? && "homework_name" !in homework.fields ==>
      ParseStatus(homework) == Failure(MissingName)
    ensures homework.JDict? && "homework_name" in homework.fields
            && "status" !in homework.fields ==>
      ParseStatus(homework) == Failure(RaisedString)
    ensures homework.JDict? && "homework_name" in homework.fields && "status" in homework.fields
            && homework.fields["status"].JStr? && !Known(homework.fields["status"]) ==>
      ParseStatus(homework) == Failure(RaisedString)
  {
  }

  /** Two different catalog statuses of one homework give two different
      notifications, so a status change is never mistaken for a repeat. */
  lemma StatusChangeChangesMessage(name: Json, a: string, b: string)
    requires a in HOMEWORK_STATUSES && b in HOMEWORK_STATUSES && a != b
    ensures Notification(name, HOMEWORK_STATUSES[a]) != Notification(name, HOMEWORK_STATUSES[b])
  {
  }

  /** A credential as `os.getenv` returns it: the string, or None. */
  function EnvValue(token: Option<string>): Json
  {
    if token.Some? then JStr(token.value) else JNull
  }

  /** A credential read from the environment is usable when it is set and
      not empty: `Truthy` of its `EnvValue` (`ProvidedIsTruthy`). */
  predicate Provided(token: Option<string>)
  {
    token.Some? && token.value != ""
  }

  /** `Provided` is Python's truth value of the getenv result. */
  lemma ProvidedIsTruthy(token: Option<string>)
    ensures Provided(token) <==> Truthy(EnvValue(token))
  {
  }

  /** Python's `all()` over a list of credentials. */
  predicate All(tokens: seq<Option<string>>)
    decreases |tokens|
  {
    tokens == [] || (Provided(tokens[0]) && All(tokens[1..]))
  }

  lemma {:induction false} AllMeansEach(tokens: seq<Option<string>>)
    ensures All(tokens) <==> forall k :: 0 <= k < |tokens| ==> Provided(tokens[k])
    decreases |tokens|
  {
    if tokens != [] {
      AllMeansEach(tokens[1..]);
      assert forall k :: 1 <= k < |tokens| ==> tokens[k] == tokens[1..][k - 1];
    }
  }

  /** `check_tokens`: true exactly when all three credentials are usable. */
  function CheckTokens(practicumToken: Option<string>, telegramToken: Option<string>,
                       telegramChatId: Option<string>): (r: bool)
    ensures r <==> Provided(practicumToken) && Provided(telegramToken) && Provided(telegramChatId)
  {
    var tokenList := [practicumToken, telegramToken, telegramChatId];
    AllMeansEach(tokenList);
    assert tokenList[0] == practicumToken && tokenList[1] == telegramToken && tokenList[2] == telegramChatId;
    All(tokenList)
  }

  /** `current_timestamp or int(time.time())`: the `from_date` of a request is
      the cursor when it is true, otherwise the current time `now`. */
  function FetchCursor(cursor: Json, now: int): (r: Json)
    ensures Truthy(cursor) ==> r == cursor
    ensures !Truthy(cursor) ==> r == JInt(now)
    ensures now != 0 ==> Truthy(r)
  {
    if Truthy(cursor) then cursor else JInt(now)
  }
}

=== FILE: polling.dfy ===
/** The loop of `main`: one iteration fetches the statuses from the cursor,
    turns the newest homework into a notification, and sends it when it
    differs from the last one sent; an exception anywhere in the iteration
    becomes an error notification, sent when it differs from the last error
    sent. The network, the chat client and the clock are inputs: a `Cycle`
    says what the fetch returned, whether each send succeeded and what time
    it was. */
module Polling {
  import opened Wrappers
  import opened PyValue
  import opened Homework

  /** What the request of `get_api_answer` produced. */
  datatype Fetch =
    | Answer(body: Json)           // status 200 and a body that decodes as JSON
    | RequestFailed                // `requests.get` raised, or the status was not 200
    | Undecodable(detail: string)  // `response.json()` raised; `detail` is its text

  /** The environment of one iteration. */
  datatype Cycle = Cycle(now: int, fetch: Fetch, statusSendOk: bool, errorSendOk: bool)

  datatype Channel = StatusUpdate | ErrorReport

  /** A message handed to the chat client, and whether it arrived. */
  datatype Notice = Notice(channel: Channel, text: string, delivered: bool)

  /** The variables `main` keeps across iterations: `current_timestamp`,
      `message_bot`, `message_error`, and whether the loop still runs. */
  datatype LoopState = LoopState(cursor: Json, messageBot: string, messageError: string, running: bool)

  /** One iteration: the state after it, the `from_date` it requested, and
      the messages it tried to send, in order. */
  datatype Transition = Transition(next: LoopState, fromDate: Json, notices: seq<Notice>)

  /** The state and the messages after a bounded run of iterations. */
  datatype Trace = Trace(final: LoopState, notices: seq<Notice>)

  const ERROR_PREFIX: string := "Сбой в работе программы: "

  /** The error notification for an exception. */
  function ErrorMessage(e: Error): string
  {
    ERROR_PREFIX + e.text
  }

  /** The state `main` enters the loop with. */
  function Initial(now: int): LoopState
  {
    LoopState(JInt(now), "", "", true)
  }

  /** `get_api_answer` after its request: the decoded body, or the exception.
      Both of its `raise` statements raise a string. */
  function GetApiAnswer(fetch: Fetch): (r: Result<Json, Error>)
    ensures r.Success? <==> fetch.Answer?
    ensures fetch.Answer? ==> r.value == fetch.body
    ensures fetch == RequestFailed ==> r == Failure(RaisedString)
    ensures fetch.Undecodable? ==> r == Failure(Error(ValueError, fetch.detail))
  {
    match fetch
    case Answer(body) => Success(body)
    case RequestFailed => Failure(RaisedString)
    case Undecodable(detail) => Failure(Error(ValueError, detail))
  }

  /** The cursor after an iteration: `response.get('current_date')` once a
      dict has been fetched, unchanged when the fetch or the `.get` raised. */
  function NextCursor(cursor: Json, fetch: Fetch): Json
  {
    if fetch.Answer? && fetch.body.JDict? then Get(fetch.body.fields, "current_date") else cursor
  }

  /** The notification for the newest homework of a response with a
      non-empty `homeworks`. */
  function NewestMessage(response: Json): Result<Option<string>, Error>
  {
    match CheckResponse(response)
    case Failure(e) => Failure(e)
    case Success(newest) =>
      match ParseStatus(newest)
      case Failure(e) => Failure(e)
      case Success(message) => Success(Some(message))
  }

  /** The body of the `try` block with its send left out: the status message
      to compare with `message_bot`, or the exception the block raises. The
      final `check_response` raises IndexError for an empty `homeworks`. */
  function Evaluate(fetch: Fetch): Result<Option<string>, Error>
  {
    match GetApiAnswer(fetch)
    case Failure(e) => Failure(e)
    case Success(response) =>
      if !response.JDict? then Failure(NoAttribute(response, "get"))
      else if "homeworks" !in response.fields then Failure(MissingKey("homeworks"))
      else
        var homeworks := response.fields["homeworks"];
        match Len(homeworks)
        case None => Failure(NoLen(homeworks))
        case Some(n) =>
          var status := if n != 0 then NewestMessage(response) else Success(None);
          if status.Failure? then status
          else match CheckResponse(response)
            case Failure(e) => Failure(e)
            case Success(_) => status
  }

  /** The `except` block: the error notification is sent unless it repeats
      `message_error`; if that send raises, the exception leaves `main` and
      the loop stops. */
  function Report(s: LoopState, fromDate: Json, sent: seq<Notice>, e: Error, delivered: bool): Transition
  {
    var message := ErrorMessage(e);
    if message == s.messageError then Transition(s, fromDate, sent)
    else if delivered then
      Transition(s.(messageError := message), fromDate, sent + [Notice(ErrorReport, message, true)])
    else
      Transition(s.(running := false), fromDate, sent + [Notice(ErrorReport, message, false)])
  }

  /** What the `try` block leaves behind: the state, the messages it tried
      to send, and the exception it raised, if any. */
  datatype Attempt = Attempt(state: LoopState, sent: seq<Notice>, raised: Option<Error>)

  /** The `try` block of an iteration: after the fetch the cursor moves; a
      status message that differs from `message_bot` is sent, and remembered
      only when the send returns. A failed send raises a string. */
  function TryBlock(s: LoopState, fetch: Fetch, statusSendOk: bool): Attempt
  {
    var fetched := s.(cursor := NextCursor(s.cursor, fetch));
    match Evaluate(fetch)
    case Failure(e) => Attempt(fetched, [], Some(e))
    case Success(None) => Attempt(fetched, [], None)
    case Success(Some(message)) =>
      if message == s.messageBot then Attempt(fetched, [], None)
      else if statusSendOk then
        Attempt(fetched.(messageBot := message), [Notice(StatusUpdate, message, true)], None)
      else
        Attempt(fetched, [Notice(StatusUpdate, message, false)], Some(RaisedString))
  }

  /** One iteration of the loop of `main`: the `try` block, then the
      `except` block when it raised. */
  function Next(s: LoopState, c: Cycle): Transition
    requires s.running
  {
    var fromDate := FetchCursor(s.cursor, c.now);
    var attempt := TryBlock(s, c.fetch, c.statusSendOk);
    match attempt.raised
    case None => Transition(attempt.state, fromDate, attempt.sent)
    case Some(e) => Report(attempt.state, fromDate, attempt.sent, e, c.errorSendOk)
  }

  /** The loop run over a finite list of iterations; it ends early once an
      error notification could not be sent. */
  function Iterate(s: LoopState, cycles: seq<Cycle>): Trace
    decreases |cycles|
  {
    if cycles == [] || !s.running then Trace(s, [])
    else
      var t := Next(s, cycles[0]);
      var rest := Iterate(t.next, cycles[1..]);
      Trace(rest.final, t.notices + rest.notices)
  }

  /** Unfolding one iteration of a run whose earlier messages were `sent`. */
  lemma IterateCons(s: LoopState, cycles: seq<Cycle>, sent: seq<Notice>)
    requires cycles != [] && s.running
    ensures var t := Next(s, cycles[0]);
      var rest := Iterate(t.next, cycles[1..]);
      && Iterate(s, cycles).final == rest.final
      && sent + Iterate(s, cycles).notices == (sent + t.notices) + rest.notices
  {
    var t := Next(s, cycles[0]);
    var rest := Iterate(t.next, cycles[1..]);
    assert sent + (t.notices + rest.notices) == (sent + t.notices) + rest.notices;
  }

  /** The bot between iterations of `main`. */
  class Poller {
    var cursor: Json
    var messageBot: string
    var messageError: string
    var running: bool

    function State(): LoopState
      reads this
    {
      LoopState(cursor, messageBot, messageError, running)
    }

    /** The state `main` sets up before its loop, at time `now`. */
    constructor (now: int)
      ensures State() == Initial(now)
    {
      cursor := JInt(now);
      messageError := "";
      messageBot := "";
      running := true;
    }

    /** The `try` block of one iteration. The exception it raises is
        returned in `raised` instead of being thrown. */
    method Try(fetch: Fetch, statusSendOk: bool) returns (notices: seq<Notice>, raised: Option<Error>)
      modifies this
      ensures Attempt(State(), notices, raised) == TryBlock(old(State()), fetch, statusSendOk)
    {
      notices := [];
      raised := None;
      var answer := GetApiAnswer(fetch);
      if answer.Failure? {
        return [], Some(answer.error);
      }
      var response := answer.value;
      if !response.JDict? {
        return [], Some(NoAttribute(response, "get"));
      }
      cursor := Get(response.fields, "current_date");
      if "homeworks" !in response.fields {
        return [], Some(MissingKey("homeworks"));
      }
      var count := Len(response.fields["homeworks"]);
      if count.None? {
        return [], Some(NoLen(response.fields["homeworks"]));
      }
      if count.value != 0 {
        var newest := CheckResponse(response);
        if newest.Failure? {
          return [], Some(newest.error);
        }
        var message := ParseStatus(newest.value);
        if message.Failure? {
          return [], Some(message.error);
        }
        if message.value != messageBot {
          notices := [Notice(StatusUpdate, message.value, statusSendOk)];
          if !statusSendOk {
            return notices, Some(RaisedString);
          }
          messageBot := message.value;
        }
      }
      var last := CheckResponse(response);
      if last.Failure? {
        raised := Some(last.error);
      }
    }

    /** One pass through the `try`/`except` of the loop. */
    method Step(now: int, fetch: Fetch, statusSendOk: bool, errorSendOk: bool)
      returns (fromDate: Json, notices: seq<Notice>)
      requires running
      modifies this
      ensures Transition(State(), fromDate, notices)
              == Next(old(State()), Cycle(now, fetch, statusSendOk, errorSendOk))
    {
      fromDate := FetchCursor(cursor, now);
      var raised;
      notices, raised := Try(fetch, statusSendOk);
      if raised.Some? {
        var message := ErrorMessage(raised.value);
        if message != messageError {
          notices := notices + [Notice(ErrorReport, message, errorSendOk)];
          if errorSendOk {
            messageError := message;
          } else {
            running := false;
          }
        }
      }
    }

    /** The loop over a finite list of iterations, stopping once it halts. */
    method Run(cycles: seq<Cycle>) returns (notices: seq<Notice>)
      modifies this
      ensures Trace(State(), notices) == Iterate(old(State()), cycles)
    {
      notices := [];
      var i := 0;
      while i < |cycles| && running
        invariant 0 <= i <= |cycles|
        invariant Iterate(old(State()), cycles).final == Iterate(State(), cycles[i..]).final
        invariant Iterate(old(State()), cycles).notices == notices + Iterate(State(), cycles[i..]).notices
        decreases |cycles| - i
      {
        var c := cycles[i];
        IterateCons(State(), cycles[i..], notices);
        assert cycles[i..][0] == c && cycles[i..][1..] == cycles[i + 1..];
        var _, sent := Step(c.now, c.fetch, c.statusSendOk, c.errorSendOk);
        notices := notices + sent;
        i := i + 1;
      }
    }
  }

  /** `main` over a finite list of iterations: it starts the loop only when
      `check_tokens` accepts the three credentials, at time `startTime`. */
  method Launch(practicumToken: Option<string>, telegramToken: Option<string>,
                telegramChatId: Option<string>, startTime: int, cycles: seq<Cycle>)
    returns (started: bool, notices: seq<Notice>)
    ensures started <==> Provided(practicumToken) && Provided(telegramToken) && Provided(telegramChatId)
    ensures !started ==> notices == []
    ensures started ==> notices == Iterate(Initial(startTime), cycles).notices
  {
    if !CheckTokens(practicumToken, telegramToken, telegramChatId) {
      return false, [];
    }
    var bot := new Poller(startTime);
    started := true;
    notices := bot.Run(cycles);
  }
}

=== FILE: polling_properties.dfy ===
/** What the loop of `main` guarantees: which status is reported, how the
    cursor moves, that neither a status nor an error is sent twice in a row,
    and when the loop stops. */
module PollingProperties {
  import opened Wrappers
  import opened PyValue
  import opened Homework
  import opened Polling

  /** An iteration that raises nothing always has a status message: an empty
      `homeworks` makes the final `check_response` raise. */
  lemma EveryCycleReportsOrRaises(fetch: Fetch)
    ensures Evaluate(fetch).Success? ==> Evaluate(fetch).value.Some?
  {
  }

  /** The status message of an iteration is the formatted newest homework,
      and it exists exactly when both `check_response` and `parse_status`
      succeed on the fetched body. */
  lemma NewestHomeworkIsReported(body: Json)
    ensures Evaluate(Answer(body)).Success? <==>
      CheckResponse(body).Success? && ParseStatus(CheckResponse(body).value).Success?
    ensures Evaluate(Answer(body)).Success? ==>
      Evaluate(Answer(body)) == Success(Some(ParseStatus(body.fields["homeworks"].items[0]).value))
  {
  }

  predicate NoStatusSent(notices: seq<Notice>)
  {
    forall k :: 0 <= k < |notices| ==> notices[k].channel != StatusUpdate
  }

  /** An empty `homeworks` list sends no status: the iteration takes the
      error path with the IndexError of `check_response`, and the cursor
      still moves to `current_date`. */
  lemma EmptyHomeworksTakeErrorPath(s: LoopState, c: Cycle)
    requires s.running
    requires c.fetch.Answer? && c.fetch.body.JDict?
    requires "homeworks" in c.fetch.body.fields && c.fetch.body.fields["homeworks"] == JList([])
    ensures NoStatusSent(Next(s, c).notices)
    ensures Next(s, c).next.cursor == Get(c.fetch.body.fields, "current_date")
    ensures ErrorMessage(EmptyHomeworks) != s.messageError ==>
      Next(s, c).notices == [Notice(ErrorReport, ErrorMessage(EmptyHomeworks), c.errorSendOk)]
  {
  }

  /** The `from_date` of an iteration follows the cursor default, and the
      cursor becomes `current_date` after a dict was fetched (None when it is
      absent) and stays as it was when the fetch or its `.get` raised. */
  lemma CursorRule(s: LoopState, c: Cycle)
    requires s.running
    ensures Next(s, c).fromDate == (if Truthy(s.cursor) then s.cursor else JInt(c.now))
    ensures c.fetch.Answer? && c.fetch.body.JDict? ==>
      Next(s, c).next.cursor == (if "current_date" in c.fetch.body.fields
                                 then c.fetch.body.fields["current_date"] else JNull)
    ensures !(c.fetch.Answer? && c.fetch.body.JDict?) ==> Next(s, c).next.cursor == s.cursor
  {
  }

  /** A response without `current_date` makes the next request use the
      current time again. */
  lemma MissingDateFallsBackToNow(s: LoopState, c: Cycle, later: Cycle)
    requires s.running && Next(s, c).next.running
    requires c.fetch.Answer? && c.fetch.body.JDict? && "current_date" !in c.fetch.body.fields
    ensures Next(Next(s, c).next, later).fromDate == JInt(later.now)
  {
  }

  /** A status message equal to `message_bot` is not sent, and the
      iteration changes nothing but the cursor. */
  lemma RepeatedStatusNotSent(s: LoopState, c: Cycle)
    requires s.running && Evaluate(c.fetch) == Success(Some(s.messageBot))
    ensures Next(s, c).notices == []
    ensures Next(s, c).next == s.(cursor := NextCursor(s.cursor, c.fetch))
  {
  }

  /** An exception whose notification equals `message_error` is not even
      attempted: the iteration sends only what the `try` block sent, keeps the
      state the `try` block left, and so never halts the loop. */
  lemma RepeatedErrorNotSent(s: LoopState, c: Cycle)
    requires s.running
    requires var a := TryBlock(s, c.fetch, c.statusSendOk);
      a.raised.Some? && ErrorMessage(a.raised.value) == s.messageError
    ensures Next(s, c).notices == TryBlock(s, c.fetch, c.statusSendOk).sent
    ensures Next(s, c).next == TryBlock(s, c.fetch, c.statusSendOk).state
    ensures Next(s, c).next.running
  {
  }

  /** No error notification an iteration attempts, delivered or not, equals
      the `message_error` it started with. */
  lemma ErrorAttemptsDifferFromMemory(s: LoopState, c: Cycle)
    requires s.running
    ensures forall k :: 0 <= k < |Next(s, c).notices| && Next(s, c).notices[k].channel == ErrorReport ==>
      Next(s, c).notices[k].text != s.messageError
  {
    var a := TryBlock(s, c.fetch, c.statusSendOk);
    assert forall k :: 0 <= k < |a.sent| ==> a.sent[k].channel == StatusUpdate;
  }

  /** `message_bot` only ever becomes a status message that was just
      delivered; `message_error` only ever becomes an error message that was
      just delivered, and is never reset. */
  lemma MemoriesFollowDeliveries(s: LoopState, c: Cycle)
    requires s.running
    ensures Next(s, c).next.messageBot != s.messageBot ==>
      Next(s, c).notices == [Notice(StatusUpdate, Next(s, c).next.messageBot, true)]
    ensures Next(s, c).next.messageError != s.messageError ==>
      var n := Next(s, c).notices;
      && |n| > 0 && n[|n| - 1] == Notice(ErrorReport, Next(s, c).next.messageError, true)
      && Next(s, c).next.messageError[..|ERROR_PREFIX|] == ERROR_PREFIX
    ensures TryBlock(s, c.fetch, c.statusSendOk).raised.None? ==>
      Next(s, c).next.messageError == s.messageError
  {
  }

  /** The loop stops only when an error notification was attempted and its
      send raised. */
  lemma HaltsOnlyOnFailedErrorSend(s: LoopState, c: Cycle)
    requires s.running
    ensures !Next(s, c).next.running <==>
      var n := Next(s, c).notices;
      |n| > 0 && n[|n| - 1].channel == ErrorReport && !n[|n| - 1].delivered
  {
  }

  /** Every exception that comes from raising a string (a failed request, an
      unknown or missing status, a failed status send) has the same text, so
      once one of them was reported the next one is not. */
  lemma RaisedStringsShareOneReport(s: LoopState, c: Cycle)
    requires s.running && s.messageError == ErrorMessage(RaisedString)
    requires Evaluate(c.fetch) == Failure(RaisedString)
             || (Evaluate(c.fetch).Success? && Evaluate(c.fetch).value != Some(s.messageBot) && !c.statusSendOk)
    ensures forall k :: 0 <= k < |Next(s, c).notices| ==> Next(s, c).notices[k].channel == StatusUpdate
    ensures Next(s, c).next == s.(cursor := NextCursor(s.cursor, c.fetch))
  {
  }

  /** The texts of the delivered messages of one channel. */
  function Delivered(ch: Channel, notices: seq<Notice>): seq<string>
  {
    if notices == [] then []
    else
      (if notices[0].channel == ch && notices[0].delivered then [notices[0].text] else [])
      + Delivered(ch, notices[1..])
  }

  lemma {:induction false} DeliveredConcat(ch: Channel, a: seq<Notice>, b: seq<Notice>)
    ensures Delivered(ch, a + b) == Delivered(ch, a) + Delivered(ch, b)
    decreases |a|
  {
    if a == [] {
      assert a + b == b;
    } else {
      assert (a + b)[0] == a[0];
      assert (a + b)[1..] == a[1..] + b;
      DeliveredConcat(ch, a[1..], b);
    }
  }

  /** The remembered last message of a channel. */
  function Memory(ch: Channel, s: LoopState): string
  {
    match ch
    case StatusUpdate => s.messageBot
    case ErrorReport => s.messageError
  }

  predicate NoAdjacentRepeats(d: seq<string>)
  {
    forall k :: 0 <= k < |d| - 1 ==> d[k] != d[k + 1]
  }

  /** The `try` block delivers at most one status and no error, never the
      remembered status, and remembers exactly the status it delivered. */
  lemma TryDelivery(ch: Channel, s: LoopState, fetch: Fetch, statusSendOk: bool)
    ensures var a := TryBlock(s, fetch, statusSendOk);
      var d := Delivered(ch, a.sent);
      && |d| <= 1
      && (ch == ErrorReport ==> d == [])
      && (d != [] ==> d[0] != Memory(ch, s))
      && Memory(ch, a.state) == (if d == [] then Memory(ch, s) else d[0])
      && a.state.running == s.running
  {
    var a := TryBlock(s, fetch, statusSendOk);
    if a.sent != [] {
      assert a.sent == [a.sent[0]];
    }
  }

  /** The `except` block delivers at most one error and no status, never the
      remembered error, and remembers exactly the error it delivered. */
  lemma ReportDelivery(ch: Channel, s: LoopState, fromDate: Json, sent: seq<Notice>, e: Error, delivered: bool)
    ensures var r := Report(s, fromDate, sent, e, delivered);
      var d := Delivered(ch, r.notices[|sent|..]);
      && r.notices == sent + r.notices[|sent|..]
      && |d| <= 1
      && (ch == StatusUpdate ==> d == [])
      && (d != [] ==> d[0] != Memory(ch, s))
      && Memory(ch, r.next) == (if d == [] then Memory(ch, s) else d[0])
  {
    var r := Report(s, fromDate, sent, e, delivered);
    var added := r.notices[|sent|..];
    if |r.notices| == |sent| {
      assert added == [];
    } else {
      assert added == [added[0]];
    }
  }

  /** One iteration delivers at most one message per channel, never the
      remembered one, and remembers exactly what it delivered. */
  lemma StepDelivery(ch: Channel, s: LoopState, c: Cycle)
    requires s.running
    ensures var d := Delivered(ch, Next(s, c).notices);
      && |d| <= 1
      && (d != [] ==> d[0] != Memory(ch, s))
      && Memory(ch, Next(s, c).next) == (if d == [] then Memory(ch, s) else d[0])
  {
    var a := TryBlock(s, c.fetch, c.statusSendOk);
    TryDelivery(ch, s, c.fetch, c.statusSendOk);
    if a.raised.Some? {
      var fromDate := FetchCursor(s.cursor, c.now);
      var r := Report(a.state, fromDate, a.sent, a.raised.value, c.errorSendOk);
      ReportDelivery(ch, a.state, fromDate, a.sent, a.raised.value, c.errorSendOk);
      DeliveredConcat(ch, a.sent, r.notices[|a.sent|..]);
    }
  }

  /** Putting a message in front of a list without back-to-back repeats
      keeps it so when the message differs from the list's first. */
  lemma PrependKeepsNoRepeats(m: string, d: seq<string>)
    requires NoAdjacentRepeats(d) && (d != [] ==> d[0] != m)
    ensures NoAdjacentRepeats([m] + d)
  {
    forall k | 0 <= k < |[m] + d| - 1
      ensures ([m] + d)[k] != ([m] + d)[k + 1]
    {
      if k > 0 {
        assert ([m] + d)[k] == d[k - 1] && ([m] + d)[k + 1] == d[k];
      }
    }
  }

  /** Deliveries of one iteration (`now`, taking the memory from `m0` to
      `m1`) followed by those of the rest of a run (`later`, from `m1` to
      `m2`) keep the guarantees of `DeliveredNeverRepeats`. */
  lemma ChainDeliveries(m0: string, m1: string, m2: string, now: seq<string>, later: seq<string>)
    requires |now| <= 1 && (now != [] ==> now[0] != m0) && m1 == (if now == [] then m0 else now[0])
    requires NoAdjacentRepeats(later) && (later != [] ==> later[0] != m1)
    requires m2 == (if later == [] then m1 else later[|later| - 1])
    ensures NoAdjacentRepeats(now + later)
    ensures now + later != [] ==> (now + later)[0] != m0
    ensures m2 == (if now + later == [] then m0 else (now + later)[|now + later| - 1])
  {
    if now == [] {
      assert now + later == later;
    } else {
      assert now == [now[0]];
      PrependKeepsNoRepeats(now[0], later);
    }
  }

  /** Over any run, the delivered messages of a channel never repeat back to
      back, the first differs from what was remembered at the start, and the
      memory at the end is the last delivered message. */
  lemma {:induction false} DeliveredNeverRepeats(ch: Channel, s: LoopState, cycles: seq<Cycle>)
    ensures var d := Delivered(ch, Iterate(s, cycles).notices);
      && NoAdjacentRepeats(d)
      && (d != [] ==> d[0] != Memory(ch, s))
      && Memory(ch, Iterate(s, cycles).final) == (if d == [] then Memory(ch, s) else d[|d| - 1])
    decreases |cycles|
  {
    if cycles != [] && s.running {
      var t := Next(s, cycles[0]);
      var rest := Iterate(t.next, cycles[1..]);
      IterateCons(s, cycles, []);
      assert Iterate(s, cycles).notices == t.notices + rest.notices;
      StepDelivery(ch, s, cycles[0]);
      DeliveredNeverRepeats(ch, t.next, cycles[1..]);
      DeliveredConcat(ch, t.notices, rest.notices);
      ChainDeliveries(Memory(ch, s), Memory(ch, t.next), Memory(ch, rest.final),
                      Delivered(ch, t.notices), Delivered(ch, rest.notices));
    }
  }

  /** The same answer fetched again and again after its status was delivered
      is sent once: every later iteration sends nothing. */
  lemma {:induction false} RepeatsStayQuiet(s: LoopState, cycles: seq<Cycle>, fetch: Fetch)
    requires s.running && Evaluate(fetch) == Success(Some(s.messageBot))
    requires forall k :: 0 <= k < |cycles| ==> cycles[k].fetch == fetch
    ensures Iterate(s, cycles).notices == []
    ensures Iterate(s, cycles).final.messageBot == s.messageBot
    decreases |cycles|
  {
    if cycles != [] {
      var t := Next(s, cycles[0]);
      assert t.notices == [] && t.next.running && t.next.messageBot == s.messageBot;
      RepeatsStayQuiet(t.next, cycles[1..], fetch);
    }
  }

  lemma {:induction false} SameAnswerNotifiedOnce(s: LoopState, first: Cycle, later: seq<Cycle>, message: string)
    requires s.running && first.statusSendOk
    requires Evaluate(first.fetch) == Success(Some(message)) && message != s.messageBot
    requires forall k :: 0 <= k < |later| ==> later[k].fetch == first.fetch
    ensures Iterate(s, [first] + later).notices == [Notice(StatusUpdate, message, true)]
  {
    var t := Next(s, first);
    assert ([first] + later)[1..] == later;
    RepeatsStayQuiet(t.next, later, first.fetch);
  }

  /** An approved homework `hw1` in a response dated 1000
      gives the approval notification and moves the cursor to 1000. */
  lemma ApprovedExample(s: LoopState, c: Cycle)
    requires s.running && s.messageBot == "" && c.statusSendOk
    requires c.fetch == Answer(JDict(map[
      "homeworks" := JList([JDict(map["homework_name" := JStr("hw1"), "status" := JStr("approved")])]),
      "current_date" := JInt(1000)]))
    ensures Next(s, c).notices == [Notice(StatusUpdate,
      "Изменился статус проверки работы \"" + "hw1" + "\". "
      + "Работа проверена: ревьюеру всё понравилось. Ура!", true)]
    ensures Next(s, c).next.cursor == JInt(1000)
  {
  }
}

=== FILE: pyvalue.dfy ===
/** The Python values that the HTTP client's `response.json()` hands to the
    bot, and the built-in operations the bot applies to them: truth value,
    `len()`, `dict.get`, the `in` operator and `str()`, together with the
    exceptions those operations raise. An exception is kept as its class and
    its `str()` text, because the bot turns `str(error)` into a chat message. */
module PyValue {
  import opened Wrappers

  /** A decoded JSON document as a Python value. Objects decode to dicts,
      whose keys are strings; numbers are kept to integers. */
  datatype Json =
    | JNull
    | JBool(b: bool)
    | JInt(i: int)
    | JStr(s: string)
    | JList(items: seq<Json>)
    | JDict(fields: map<string, Json>)

  /** `type(v).__name__` */
  function TypeName(v: Json): string
  {
    match v
    case JNull => "NoneType"
    case JBool(_) => "bool"
    case JInt(_) => "int"
    case JStr(_) => "str"
    case JList(_) => "list"
    case JDict(_) => "dict"
  }

  /** Python's truth value: None, False, 0 and empty containers are false. */
  predicate Truthy(v: Json)
  {
    match v
    case JNull => false
    case JBool(b) => b
    case JInt(i) => i != 0
    case JStr(s) => s != ""
    case JList(items) => items != []
    case JDict(fields) => fields != map[]
  }

  /** `len(v)`; None where Python raises TypeError because `v` has no length.
      A value with a length has length zero exactly when it is false. */
  function Len(v: Json): (r: Option<nat>)
    ensures r.Some? <==> v.JStr? || v.JList? || v.JDict?
    ensures r.Some? ==> (r.value == 0 <==> !Truthy(v))
  {
    match v
    case JStr(s) => Some(|s|)
    case JList(items) => Some(|items|)
    case JDict(fields) => Some(|fields|)
    case _ => None
  }

  /** `d.get(key)` on a dict: the value, or None when the key is absent. */
  function Get(fields: map<string, Json>, key: string): Json
  {
    if key in fields then fields[key] else JNull
  }

  datatype ErrorKind = TypeError | KeyError | IndexError | AttributeError | ValueError

  /** A raised exception: its class and the text `str(error)` gives. */
  datatype Error = Error(kind: ErrorKind, text: string)

  /** What `raise (f'...')` raises in Python 3: a string is not an exception,
      so the raise itself fails with this TypeError and the message is lost. */
  const RaisedString: Error := Error(TypeError, "exceptions must derive from BaseException")

  /** `v.attr` on a value without that attribute. */
  function NoAttribute(v: Json, attr: string): Error
  {
    Error(AttributeError, "'" + TypeName(v) + "' object has no attribute '" + attr + "'")
  }

  /** `len(v)` on a value without a length. */
  function NoLen(v: Json): Error
  {
    Error(TypeError, "object of type '" + TypeName(v) + "' has no len()")
  }

  /** `d[key]` on a dict without the key; `str` of a KeyError quotes its
      argument (none of the bot's keys holds a quote or backslash). */
  function MissingKey(key: string): Error
  {
    Error(KeyError, "'" + key + "'")
  }

  /** `x in v` where `v` is not a container. */
  function NotIterable(v: Json): Error
  {
    Error(TypeError, "argument of type '" + TypeName(v) + "' is not iterable")
  }

  /** `v in d` with a list or dict `v`, which cannot be a dict key. */
  function Unhashable(v: Json): Error
  {
    Error(TypeError, "unhashable type: '" + TypeName(v) + "'")
  }

  /** `p in s` for two strings: `p` occurs in `s` as a contiguous piece. */
  predicate Occurs(p: string, s: string)
    decreases |s|
  {
    |p| <= |s| && (s[..|p|] == p || Occurs(p, s[1..]))
  }

  /** `key in container` with a string `key`: key membership for a dict,
      element equality for a list, substring for a string, and a TypeError
      for anything that is not a container. */
  function Contains(container: Json, key: string): (r: Result<bool, Error>)
    ensures container.JDict? ==> r == Success(key in container.fields)
    ensures r.Failure? <==> !(container.JDict? || container.JList? || container.JStr?)
    ensures r.Failure? ==> r.error.kind == TypeError
  {
    match container
    case JDict(fields) => Success(key in fields)
    case JList(items) => Success(JStr(key) in items)
    case JStr(s) => Success(Occurs(key, s))
    case _ => Failure(NotIterable(container))
  }

  /** `v in d` for a dict `d` with string keys: only a string can be found,
      and a list or dict cannot be hashed at all. */
  function KeyOf<V>(v: Json, d: map<string, V>): (r: Result<bool, Error>)
    ensures r == Success(true) <==> v.JStr? && v.s in d
    ensures r.Failure? <==> v.JList? || v.JDict?
    ensures r.Failure? ==> r.error.kind == TypeError
  {
    match v
    case JStr(s) => Success(s in d)
    case JList(_) => Failure(Unhashable(v))
    case JDict(_) => Failure(Unhashable(v))
    case _ => Success(false)
  }

  function DigitChar(d: nat): char
    requires d < 10
  {
    ('0' as int + d) as char
  }

  /** The number a string of decimal digits denotes, read from its last
      digit backwards. */
  function DecimalValue(s: string): nat
    requires forall k :: 0 <= k < |s| ==> '0' <= s[k] <= '9'
  {
    if s == [] then 0
    else DecimalValue(s[..|s| - 1]) * 10 + (s[|s| - 1] as int - '0' as int)
  }

  /** Decimal digits of a natural number, most significant first: no leading
      zero, and the digits denote the number. */
  function NatToString(n: nat): (r: string)
    ensures |r| > 0
    ensures forall k :: 0 <= k < |r| ==> '0' <= r[k] <= '9'
    ensures n > 0 ==> r[0] != '0'
    ensures DecimalValue(r) == n
    decreases n
  {
    if n < 10 then [DigitChar(n)] else NatToString(n / 10) + [DigitChar(n % 10)]
  }

  /** `str(v)` as an f-string substitutes it. Exact for None, booleans,
      integers and strings; a list or a dict is shown only by its brackets. */
  function Display(v: Json): string
  {
    match v
    case JNull => "None"
    case JBool(b) => if b then "True" else "False"
    case JInt(i) => if i < 0 then "-" + NatToString(-i) else NatToString(i)
    case JStr(s) => s
    case JList(_) => "[...]"
    case JDict(_) => "{...}"
  }
}

=== FILE: wrappers.dfy ===
/** Option and Result, used where the bot's Python code returns None or
    raises an exception. */
module Wrappers {

  datatype Option<+T> = None | Some(value: T)

  datatype Result<+T, +E> = Success(value: T) | Failure(error: E)
}
